=== FILE: README.md ===
# WebSocketService as a state machine

This project models the connection and session client of the CloudonMobile 2.0
web client. That is the `WebSocketService` class, the one object that owns the
socket to the relay server. It sends the login code when the socket opens, and
it builds the FORWARD requests: DOWNLOAD, REMOVE, UPLOAD and LIST_FILES. It
dispatches inbound messages on their `type` and `command`, tags listed files
with a category taken from their extension, and turns downloads into save
requests. A watchdog timer calls the error listeners when no message arrives
after a request.

The model is functional:

- `FileType` is the classifier `getFileType`, a total function over strings.
  The category table and the default label come in as a `Catalog` value.
- `Protocol` holds the messages as datatypes. Inbound messages are what
  `JSON.parse` yields (`type`, `command`, `payload`). Outbound messages are the
  envelopes handed to `ws.send`.
- `Service` is an immutable `State` record holding the fields of the class, plus:
  - whether a socket is present;
  - an outbox of the envelopes passed to `ws.send`;
  - an effect log of listener calls, save requests, close requests and uncaught
    exceptions.

  Each `Event` is a UI call (`login`, `downloadFile`, `deleteFile`, `sendFile`,
  `disconnect`, `addWsOnMessageListener`), a socket callback (`onopen`,
  `onmessage`, `onerror`, `onclose`), the completion of the file read inside
  `sendFile`, or a timer expiry. `Step` is the pure reaction to one event.
- `ServiceProps` states what each event does. `Runs` states what holds along
  any sequence of events.

Listeners are opaque handles (`ListenerId`). A call to one is recorded, not
executed.

## Behaviour as written

The model follows the class as written. These points may surprise a reader:

- An inbound message only sets `isMessageReceived`. It cancels no timer.
- Each request that arms the watchdog overwrites the stored handle
  (`errorTimeout`) without cancelling the previous timer. Several timers can
  therefore be pending at once. `clearTimeout` in `onError` and `onClose`
  cancels only the stored handle.
- All timers have the same delay, so they fire in the order they were armed.
  The model keeps the pending timers as a list in that order. A `TimerFires`
  event fires the oldest one.
- A firing timer checks the shared `isMessageReceived` flag. So the timer of an
  answered request can still report an error once a later request has reset
  the flag (`Runs.EarlierTimerFiresAfterLaterRequest`).
- A timer left pending by `onClose` still fires after the close
  (`Runs.CloseLeavesEarlierTimerPending`).
- `wsUploadFile` and `wsListFiles` send without arming a timer. Only
  `sendMsgToWs` and `sendFile` arm one (`ServiceProps.StepBookkeeping`).
- `wsListFiles` is never given a callback in this class. So the list-files
  listener slot stays empty and that listener is never called.
- `ws.close()` leaves `ws` set. Later sends still go to the same socket
  object. `isConnected` is never set back to false.
- `saveByteArray` clicks the download link only when the file name is
  non-empty. A nameless file produces no save request.
- When `JSON.parse` rejects a frame, `isMessageReceived` has already been set.
  The exception then ends the handler.
- A LIST_FILES reply whose payload is not an array makes `.map` throw. The file
  list and the listener slot are then left as they were.

## Model

| member | source | states |
|---|---|---|
| FileType.GetFileType | src/classes/services/WebSocketService.ts:130-141 | the label of the first category, in table order, whose extension list contains the file's extension; the default label when no category contains it |
| FileType.FirstMatch | src/classes/services/WebSocketService.ts:134-138 | the index found is the first row listing the extension; none is found exactly when no row lists it |
| FileType.LastDot | src/classes/services/WebSocketService.ts:131 | the position found holds a '.' with no '.' after it; none is found exactly when the name has no '.' |
| FileType.ExtensionIsPatternCapture | src/classes/services/WebSocketService.ts:131-132 | the extension is the lower-cased capture of `\.([^.]+)$`; it is empty exactly when the pattern does not match (no '.', or a trailing '.'); it never contains a '.' |
| FileType.GetFileTypeIgnoresCase | src/classes/services/WebSocketService.ts:131-136 | two names whose extensions differ only in letter case get the same category |
| Service.AnnotateFiles | src/classes/services/WebSocketService.ts:144-149 | the list has the payload's length; entry i keeps payload entry i whole; every entry's category is the one its filename classifies to |
| Service.SaveAll | src/classes/services/WebSocketService.ts:156-177 | a one-file payload gives one request exactly when the file is named; at most one request per file, each for a named file; one per file, in payload order, when every file is named |
| Service.SaveAllAppend | src/classes/services/WebSocketService.ts:174-176 | the requests for a concatenated payload are those of the first part followed by those of the second, which with the one-file case fixes them as the named files in payload order |
| Service.Without | src/classes/services/WebSocketService.ts:52-57 | cancelling a handle removes that handle and keeps every other pending timer |
| Service.WithoutIncreasing | src/classes/services/WebSocketService.ts:52-57 | cancelling a handle keeps the pending timers in arm order and removes exactly one entry when the handle is pending |
| Service.Arm | src/classes/services/WebSocketService.ts:122-128 | arming adds a fresh handle behind the pending ones, never one already pending, and stores it as `errorTimeout`; nothing else changes and the timer bookkeeping stays well-formed |
| Service.SendMsgToWs | src/classes/services/WebSocketService.ts:116-120 | every send arms a timer that becomes the stored handle and resets the received flag whether or not a socket exists; the envelope is appended exactly when a socket exists; nothing is called |
| ServiceProps.StepFrame | src/classes/services/WebSocketService.ts:35-120 | every event only appends to the outbox (at most two envelopes) and to the effect log; only `login` installs the socket; no event writes the list-files slot; `isConnected` is raised only by a login reply and never lowered; only a message raises `isMessageReceived`; only a LIST_FILES reply replaces the file list |
| ServiceProps.MessageFrame | src/classes/services/WebSocketService.ts:43-46 | handling a frame sends at most one LIST_FILES, only appends effects, and connects exactly when the frame is a login reply |
| ServiceProps.DispatchFrame | src/classes/services/WebSocketService.ts:194-214 | the command dispatch sends at most one LIST_FILES, calls no message listener, keeps the connected flag, and changes the file list only for LIST_FILES |
| ServiceProps.NoSocketSendsNothing | src/classes/services/WebSocketService.ts:116-120 | without a socket no event other than `login` sends anything |
| ServiceProps.SendWithoutSocketStillArms | src/classes/services/WebSocketService.ts:116-120 | without a socket, the open, `downloadFile` and `deleteFile` send nothing but still arm a timer that becomes the stored handle and reset the received flag; with no earlier timer pending, its expiry calls every error listener |
| ServiceProps.DownloadSendsOneRequest | src/classes/services/WebSocketService.ts:72-78 | `downloadFile(p)` sends exactly FORWARD/DOWNLOAD with path p, arms a timer and calls nothing |
| ServiceProps.DeleteSendsRemoveThenList | src/classes/services/WebSocketService.ts:80-87 | `deleteFile(p)` sends exactly two envelopes, FORWARD/REMOVE with path p and then FORWARD/LIST_FILES; it arms one timer and calls nothing |
| ServiceProps.UploadAckRelists | src/classes/services/WebSocketService.ts:204-206 | an UPLOAD reply of any type sends one FORWARD/LIST_FILES when a socket exists, adds no effect beyond the login branch's calls and keeps the file list; a non-login one changes nothing else but the received flag |
| ServiceProps.ListFilesReplyAnnotates | src/classes/services/WebSocketService.ts:143-154 | a LIST_FILES array reply sets the file list to the payload entries, in order, each tagged with its category; the list-files listener is called once with that list exactly when its slot is set |
| ServiceProps.ListFilesReplyWithoutArrayThrows | src/classes/services/WebSocketService.ts:143-149 | a LIST_FILES reply without an array payload leaves the file list unchanged and ends in an uncaught exception |
| ServiceProps.LoginAckNotifiesListeners | src/classes/services/WebSocketService.ts:184-192 | a LOGGING_WITH_CODE reply connects and calls every message listener exactly once, in registration order, with the message, before any dispatch effect; no later effect of the same message calls one |
| ServiceProps.OtherMessageKeepsConnection | src/classes/services/WebSocketService.ts:184-192 | any other frame leaves `isConnected` unchanged and calls no message listener |
| ServiceProps.MessageMarksReceived | src/classes/services/WebSocketService.ts:43-46 | every frame sets `isMessageReceived` and leaves the pending timers, the stored handle and the next handle alone |
| ServiceProps.MalformedFrameThrows | src/classes/services/WebSocketService.ts:43-46 | a frame `JSON.parse` rejects sets the received flag, then throws; nothing else changes |
| ServiceProps.DownloadArraySavesEach | src/classes/services/WebSocketService.ts:172-177 | a DOWNLOAD array reply of any type sends nothing and adds the login branch's calls followed by exactly the save requests of `SaveAll` for the payload (by `Service.SaveAllAppend`, the named elements in payload order); one per element when every element is named |
| ServiceProps.DownloadOneFileSavesOnce | src/classes/services/WebSocketService.ts:178-180 | a DOWNLOAD reply of any type with one file adds, after the login branch's calls, one save request if the file is named and none otherwise |
| ServiceProps.DownloadWithoutPayloadSavesNothing | src/classes/services/WebSocketService.ts:172-173 | a DOWNLOAD reply of any type without payload sends nothing and adds no effect beyond the login branch's calls; a non-login one only sets the received flag |
| ServiceProps.UnhandledCommandOnlyLoginBranch | src/classes/services/WebSocketService.ts:194-214 | a message with an absent, REMOVE or unknown command has no effect beyond the received flag and the login branch |
| ServiceProps.TimerFiresIffSilent | src/classes/services/WebSocketService.ts:122-128 | the oldest pending timer fires; it calls every error listener once, in order, when no message arrived since the last reset, and none otherwise; with no pending timer nothing happens |
| ServiceProps.LoginThenOpenSendsCode | src/classes/services/WebSocketService.ts:35-70 | `login(code, err)` makes the error listeners exactly [err], stores the code and installs a socket; the following open sends LOGGING_WITH_CODE with that code and arms a timer |
| ServiceProps.SendFileThenRead | src/classes/services/WebSocketService.ts:89-106 | `sendFile` replaces the error listeners by [err], arms a timer, resets the flag and sends nothing; the read that completes afterwards sends one FORWARD/UPLOAD with the name, an empty path, the size and the encoded bytes, arming no further timer and calling nothing |
| ServiceProps.FileReadSendsUpload | src/classes/services/WebSocketService.ts:99-104 | in every state, the completed read sends one FORWARD/UPLOAD with the file's name, an empty path, its size and the encoded bytes exactly when a socket exists, and changes nothing else |
| ServiceProps.AddListenerAppends | src/classes/services/WebSocketService.ts:112-114 | a new message listener goes after those already registered |
| ServiceProps.CloseAndErrorCancelLatestOnly | src/classes/services/WebSocketService.ts:48-58 | close and socket error cancel only the stored timer handle and keep every other pending timer; an error also calls every error listener once and requests the socket's closure |
| ServiceProps.DisconnectRequestsClose | src/classes/services/WebSocketService.ts:108-110 | `disconnect` requests a close when a socket exists and otherwise does nothing |
| ServiceProps.StepBookkeeping | src/classes/services/WebSocketService.ts:59-120 | only `addWsOnMessageListener` adds a message listener, at the end; only `login` and `sendFile` replace the error listeners, by [err]; only `login` writes the code; a message raises the received flag and only the arming events (open, `downloadFile`, `deleteFile`, `sendFile`) lower it; exactly those arm a timer whose handle becomes the stored one; no other event touches the stored or next handle, and only close, error and expiry remove pending timers |
| ServiceProps.StepOutputs | src/classes/services/WebSocketService.ts:34-120 | `login`, `sendFile`, the error and close callbacks, `disconnect`, `addWsOnMessageListener` and expiry send nothing; `login`, the open, the close callback, the three requests, the completed read and `addWsOnMessageListener` call no listener and request no close |
| ServiceProps.StepKeepsValid | src/classes/services/WebSocketService.ts:122-128 | every event keeps the pending timers in arm order and below the next handle, and keeps every file-list entry tagged with its own category |
| ServiceProps.StepKeepsTimers | src/classes/services/WebSocketService.ts:116-128 | arming, firing and `clearTimeout` keep the pending timers in arm order and below the next handle |
| ServiceProps.ListFilesReplyList | src/classes/services/WebSocketService.ts:207-212 | a LIST_FILES message either leaves the file list alone or replaces it by its array payload, each entry tagged with its category |
| Runs.ReachableIsValid | src/classes/services/WebSocketService.ts:143-149 | in every reachable state the timer bookkeeping is well-formed and every file-list entry carries the category of its filename |
| Runs.ConnectedIffLoginAck | src/classes/services/WebSocketService.ts:184-192 | after a run, `isConnected` holds exactly when it held before or some event of the run was a LOGGING_WITH_CODE reply |
| Runs.ListFilesListenerNeverCalled | src/classes/services/WebSocketService.ts:225-234 | from an empty list-files slot, the slot stays empty and no run calls the list-files listener |
| Runs.ReachableNeverCallsListFilesListener | src/classes/services/WebSocketService.ts:151-153 | no run from the initial state ever calls the list-files listener |
| Runs.RunListeners | src/classes/services/WebSocketService.ts:112-114 | after a run the message listeners are those before it followed by the ones its `addWsOnMessageListener` calls registered, in call order |
| Runs.NoSocketRunSendsNothing | src/classes/services/WebSocketService.ts:116-120 | until `login`, no sequence of events sends anything |
| Runs.EarlierTimerFiresAfterLaterRequest | src/classes/services/WebSocketService.ts:116-128 | after a login request that was answered, a download request leaves two timers pending; the first one to fire calls the error listener |
| Runs.CloseLeavesEarlierTimerPending | src/classes/services/WebSocketService.ts:55-58 | after two requests and a close, the first request's timer is still pending and calls the error listener when it fires |

## Left out

- Socket construction, the relay URL and the socket's ready states (lines 65-69): a present socket accepts every send into the outbox, whatever its state.
- A second `login` replaces the socket without closing the old one. Callbacks from the old socket cannot be told apart from the new one's, because events carry no socket identity.
- `JSON.stringify` and `JSON.parse`: messages are datatypes. A frame the parser rejects is `Malformed`. Frames that parse to a non-object (such as `null` or a number) are not modelled.
- `FileReader`, `Blob` and `Buffer`: the encoded bytes of an upload are an opaque string carried by the `FileRead` event. A failed read, where `reader.result` is null, is not modelled.
- `base64ToArrayBuffer` is not part of this model. Download bytes stay encoded in the save request, so a decoding failure inside it is not modelled.
- `saveByteArray`'s DOM work (object URL, anchor element, click): modelled as a `SaveRequested` effect.
- Wall-clock time and the 8000 ms delay: expiry is an explicit event that fires the oldest pending timer.
- `console.log` calls.
- The contents of `extensionsDictionary` and the i18n strings are not part of this model. The category table and the default label are a `Catalog` parameter. Its order stands for `Object.entries` order, which is declaration order for non-numeric keys.
- FileType.Lower: only ASCII letters are lower-cased. The full Unicode mapping of `toLowerCase` is not modelled.
- Files whose `filename` is `undefined`, and file fields other than filename, size and bytes: a file here always has these three fields.
- What listeners do when called: a call is recorded, and a listener that throws or re-registers is not modelled.
- The `isConnectedValue` getter (lines 31-33) only reads the `isConnected` field.
- `src/i18n.ts` is locale configuration. `tests/unit/example.spec.ts` is a UI rendering test.

=== FILE: file_type.dfy ===
/**
 The file classifier of the web-socket service: a file name is mapped to a
 human-readable category by its extension, using a table of categories that is
 searched in declaration order, with a default label when no row matches.
 */
module FileType {
  import opened Wrappers

  /** One row of the category table: its name and the extensions filed under it. */
  datatype Category = Category(name: string, extensions: seq<string>)

  /** The classifier's configuration: the table in declaration order and the fallback label. */
  datatype Catalog = Catalog(table: seq<Category>, defaultLabel: string)

  predicate IsUpper(c: char) {
    'A' <= c <= 'Z'
  }

  /** Lower-cases one character (only the ASCII letters have a case here). */
  function LowerChar(c: char): char {
    if IsUpper(c) then (c as int + 32) as char else c
  }

  /** `toLowerCase` applied character by character. */
  function Lower(s: string): (r: string)
    ensures |r| == |s|
    ensures forall i :: 0 <= i < |r| ==> !IsUpper(r[i])
  {
    seq(|s|, i requires 0 <= i < |s| => LowerChar(s[i]))
  }

  /** Lower-casing twice is lower-casing once. */
  lemma LowerIdempotent(s: string)
    ensures Lower(Lower(s)) == Lower(s)
  {
  }

  /** Position of the last '.' in `s`, if any. */
  function LastDot(s: string): (r: Option<nat>)
    ensures r.Some? ==> r.value < |s| && s[r.value] == '.'
    ensures r.Some? ==> forall k :: r.value < k < |s| ==> s[k] != '.'
    ensures r.None? ==> forall k :: 0 <= k < |s| ==> s[k] != '.'
    decreases |s|
  {
    if |s| == 0 then None
    else if s[|s| - 1] == '.' then Some(|s| - 1)
    else LastDot(s[..|s| - 1])
  }

  /**
   `raw` is the capture group of the pattern `\.([^.]+)$` on `name`: a
   non-empty, dot-free run at the very end of `name`, right after a '.'.
   */
  ghost predicate DotTail(name: string, raw: string) {
    && 0 < |raw| < |name|
    && '.' !in raw
    && name[|name| - |raw| - 1] == '.'
    && name[|name| - |raw|..] == raw
  }

  /** The lower-cased extension of `name`, or "" when the pattern does not match. */
  function Extension(name: string): string {
    match LastDot(name)
    case Some(i) => if i + 1 < |name| then Lower(name[i + 1..]) else ""
    case None => ""
  }

  /** A dot-free tail right after a '.' is found by `LastDot`. */
  lemma DotTailIsAfterLastDot(name: string, raw: string)
    requires DotTail(name, raw)
    ensures LastDot(name) == Some(|name| - |raw| - 1)
  {
  }

  /** When the name ends in a '.' and a non-empty dot-free run, the extension is that run, lower-cased. */
  lemma ExtensionOfDotTail(name: string, raw: string)
    requires DotTail(name, raw)
    ensures Extension(name) == Lower(raw)
  {
    DotTailIsAfterLastDot(name, raw);
  }

  /** A non-empty extension comes from the run after the last '.', which is a dot-free tail. */
  lemma NonEmptyExtensionHasTail(name: string)
    requires Extension(name) != ""
    ensures LastDot(name).Some? && LastDot(name).value + 1 < |name|
    ensures DotTail(name, name[LastDot(name).value + 1..])
  {
    var i := LastDot(name).value;
    var raw := name[i + 1..];
    assert forall k :: 0 <= k < |raw| ==> raw[k] == name[i + 1 + k];
  }

  /**
   The extension is the lower-cased capture of `\.([^.]+)$` when the pattern
   matches, and is empty exactly when it does not (no '.', or a trailing '.').
   */
  lemma ExtensionIsPatternCapture(name: string)
    ensures forall raw :: DotTail(name, raw) ==> Extension(name) == Lower(raw)
    ensures Extension(name) != "" <==> exists raw :: DotTail(name, raw)
    ensures '.' !in Extension(name)
  {
    forall raw | DotTail(name, raw)
      ensures Extension(name) == Lower(raw)
    {
      ExtensionOfDotTail(name, raw);
    }
    if Extension(name) != "" {
      NonEmptyExtensionHasTail(name);
      var raw := name[LastDot(name).value + 1..];
      assert forall k :: 0 <= k < |raw| ==> LowerChar(raw[k]) != '.';
    }
  }

  /** Index of the first row, in table order, listing `ext`. */
  function FirstMatch(table: seq<Category>, ext: string): (r: Option<nat>)
    ensures r.Some? ==> r.value < |table| && ext in table[r.value].extensions
    ensures r.Some? ==> forall k :: 0 <= k < r.value ==> ext !in table[k].extensions
    ensures r.None? <==> forall k :: 0 <= k < |table| ==> ext !in table[k].extensions
    decreases |table|
  {
    if |table| == 0 then None
    else if ext in table[0].extensions then Some(0)
    else
      match FirstMatch(table[1..], ext)
      case Some(k) => Some(k + 1)
      case None => None
  }

  /** `k` is the first row of `table` whose extension list contains `ext`. */
  ghost predicate IsFirstMatch(table: seq<Category>, ext: string, k: int) {
    && 0 <= k < |table|
    && ext in table[k].extensions
    && forall j :: 0 <= j < k ==> ext !in table[j].extensions
  }

  /**
   `getFileType`: the label of the first category, in table order, listing the
   extension of `name`, or the default label when no category lists it.
   */
  function GetFileType(c: Catalog, name: string): (kind: string)
    ensures forall k :: IsFirstMatch(c.table, Extension(name), k) ==> kind == c.table[k].name
    ensures (forall k :: 0 <= k < |c.table| ==> Extension(name) !in c.table[k].extensions)
              ==> kind == c.defaultLabel
  {
    match FirstMatch(c.table, Extension(name))
    case Some(k) => c.table[k].name
    case None => c.defaultLabel
  }

  /**
   The classification never depends on the case of the extension: two names
   whose extensions differ only in case get the same label.
   */
  lemma GetFileTypeIgnoresCase(c: Catalog, pre: string, raw: string)
    requires '.' !in raw && raw != []
    ensures GetFileType(c, pre + "." + raw) == GetFileType(c, pre + "." + Lower(raw))
  {
    var n1 := pre + "." + raw;
    var n2 := pre + "." + Lower(raw);
    assert DotTail(n1, raw) by {
      assert n1[|n1| - |raw|..] == raw;
    }
    var l := Lower(raw);
    assert '.' !in l by {
      assert forall k :: 0 <= k < |raw| ==> raw[k] != '.';
      assert forall k :: 0 <= k < |l| ==> l[k] != '.';
    }
    assert DotTail(n2, l) by {
      assert n2[|n2| - |l|..] == l;
    }
    ExtensionIsPatternCapture(n1);
    ExtensionIsPatternCapture(n2);
    LowerIdempotent(raw);
  }
}

=== FILE: protocol.dfy ===
/**
 The messages exchanged with the relay server. Inbound frames are the decoded
 JSON objects the service reads (`type`, `command`, `payload`); outbound
 envelopes are the objects it hands to `JSON.stringify` before `ws.send`.
 */
module Protocol {
  import opened Wrappers

  /** Values of the `type` field; `OtherType` stands for any other value or its absence. */
  datatype MsgType = LoggingWithCode | Forward | OtherType

  /** Values of the `command` field; `OtherCommand` stands for any value the service does not name. */
  datatype Command = Download | Upload | ListFiles | Remove | OtherCommand

  /** A remote file entry: its name, its size and its base64 `bytes` (kept opaque). */
  datatype File = File(filename: string, size: int, bytes: string)

  /**
   The `payload` field of an inbound message: falsy/absent, one file object, or
   an array of them (the shape `Array.isArray` tells apart).
   */
  datatype Payload = NoPayload | OneFile(file: File) | FileArray(files: seq<File>)

  /** A decoded inbound message. */
  datatype Inbound = Inbound(msgType: MsgType, command: Option<Command>, payload: Payload)

  /** What `JSON.parse` makes of one received frame. */
  datatype Frame = Malformed | Decoded(msg: Inbound)

  /** The `payload` object of an outbound upload request. */
  datatype UploadPayload = UploadPayload(filepath: string, path: string, size: int, bytes: string)

  /** An outbound envelope, in the two shapes the service builds. */
  datatype Envelope =
    | LoginEnvelope(code: Option<int>)
    | ForwardEnvelope(command: Command, path: Option<string>, upload: Option<UploadPayload>)

  /** The login request sent when the socket opens; the code is absent before any `login`. */
  function LoginRequest(code: Option<int>): Envelope {
    LoginEnvelope(code)
  }

  /** FORWARD/DOWNLOAD with the requested path. */
  function DownloadRequest(path: string): Envelope {
    ForwardEnvelope(Download, Some(path), None)
  }

  /** FORWARD/REMOVE with the path to delete. */
  function RemoveRequest(path: string): Envelope {
    ForwardEnvelope(Remove, Some(path), None)
  }

  /** FORWARD/LIST_FILES, no path and no payload. */
  function ListFilesRequest(): Envelope {
    ForwardEnvelope(ListFiles, None, None)
  }

  /** FORWARD/UPLOAD carrying the file name, an empty target path, the size and the encoded bytes. */
  function UploadRequest(filename: string, size: int, encoded: string): Envelope {
    ForwardEnvelope(Upload, None, Some(UploadPayload(filename, "", size, encoded)))
  }
}

=== FILE: runs.dfy ===
/**
 Sequences of events: what holds of every state the service can reach from
 its initial state, and two concrete runs showing how the timers behave.
 */
module Runs {
  import opened Wrappers
  import opened Protocol
  import opened FileType
  import opened Service
  import opened ServiceProps

  /** The state after handling `es` in order, starting from `s`. */
  function Run(c: Catalog, s: State, es: seq<Event>): State
    decreases |es|
  {
    if es == [] then s else Run(c, Step(c, s, es[0]), es[1..])
  }

  /** The timer bookkeeping and the file-list annotation hold after any run from a state that has them. */
  lemma {:induction false} RunKeepsValid(c: Catalog, s: State, es: seq<Event>)
    requires Valid(c, s)
    ensures Valid(c, Run(c, s, es))
    decreases |es|
  {
    if es != [] {
      StepKeepsValid(c, s, es[0]);
      RunKeepsValid(c, Step(c, s, es[0]), es[1..]);
    }
  }

  /** The initial state is valid, so every reachable state is. */
  lemma ReachableIsValid(c: Catalog, es: seq<Event>)
    ensures Valid(c, Run(c, Init(), es))
  {
    RunKeepsValid(c, Init(), es);
  }

  /** The outbox and the effect log of a run extend those of its start. */
  lemma {:induction false} RunAppends(c: Catalog, s: State, es: seq<Event>)
    ensures s.outbox <= Run(c, s, es).outbox
    ensures s.effects <= Run(c, s, es).effects
    decreases |es|
  {
    if es != [] {
      StepFrame(c, s, es[0]);
      RunAppends(c, Step(c, s, es[0]), es[1..]);
    }
  }

  /**
   The service is connected after a run exactly when it was connected before or
   the run received a LOGGING_WITH_CODE message: nothing else raises the flag,
   and nothing ever lowers it.
   */
  lemma {:induction false} ConnectedIffLoginAck(c: Catalog, s: State, es: seq<Event>)
    ensures Run(c, s, es).isConnected <==>
              s.isConnected || exists i :: 0 <= i < |es| && IsLoginAck(es[i])
    decreases |es|
  {
    if es != [] {
      StepFrame(c, s, es[0]);
      ConnectedIffLoginAck(c, Step(c, s, es[0]), es[1..]);
      if exists i :: 0 <= i < |es[1..]| && IsLoginAck(es[1..][i]) {
        var i :| 0 <= i < |es[1..]| && IsLoginAck(es[1..][i]);
        assert IsLoginAck(es[i + 1]);
      }
      if exists i :: 0 <= i < |es| && IsLoginAck(es[i]) {
        var i :| 0 <= i < |es| && IsLoginAck(es[i]);
        if i > 0 {
          assert IsLoginAck(es[1..][i - 1]);
        }
      }
    }
  }

  /**
   No event writes the list-files slot, so from a state where it is empty the
   list-files listener is never called, whatever LIST_FILES replies arrive.
   */
  lemma {:induction false} ListFilesListenerNeverCalled(c: Catalog, s: State, es: seq<Event>)
    requires s.listFilesListener.None?
    ensures Run(c, s, es).listFilesListener.None?
    ensures forall k :: |s.effects| <= k < |Run(c, s, es).effects| ==>
              !Run(c, s, es).effects[k].ListFilesListenerCalled?
    decreases |es|
  {
    if es != [] {
      var s1 := Step(c, s, es[0]);
      StepFrame(c, s, es[0]);
      NoListFilesCallInStep(c, s, es[0]);
      ListFilesListenerNeverCalled(c, s1, es[1..]);
      RunAppends(c, s1, es[1..]);
    }
  }

  /** One step with an empty slot adds no list-files listener call. */
  lemma NoListFilesCallInStep(c: Catalog, s: State, e: Event)
    requires s.listFilesListener.None?
    ensures forall k :: |s.effects| <= k < |Step(c, s, e).effects| ==>
              !Step(c, s, e).effects[k].ListFilesListenerCalled?
  {
    if e.Message? {
      NoListFilesCallOnMessage(c, s, e.frame);
    }
  }

  /** The part of `NoListFilesCallInStep` about received frames. */
  lemma NoListFilesCallOnMessage(c: Catalog, s: State, f: Frame)
    requires s.listFilesListener.None?
    ensures forall k :: |s.effects| <= k < |OnMessage(c, s, f).effects| ==>
              !OnMessage(c, s, f).effects[k].ListFilesListenerCalled?
  {
    if f.Decoded? {
      var s2 := LoginBranch(s.(isMessageReceived := true), f.msg);
      assert forall k :: |s.effects| <= k < |s2.effects| ==> !s2.effects[k].ListFilesListenerCalled?;
      DispatchFrame(c, s2, f.msg);
    }
  }

  /** In the service as written no event sets the slot, so no run from the initial state calls that listener. */
  lemma ReachableNeverCallsListFilesListener(c: Catalog, es: seq<Event>)
    ensures forall k :: 0 <= k < |Run(c, Init(), es).effects| ==>
              !Run(c, Init(), es).effects[k].ListFilesListenerCalled?
  {
    ListFilesListenerNeverCalled(c, Init(), es);
  }

  /** The listeners the `addWsOnMessageListener` calls among `es` register, in call order. */
  function Registered(es: seq<Event>): seq<ListenerId>
    decreases |es|
  {
    if es == [] then []
    else (if es[0].AddMessageListener? then [es[0].listener] else []) + Registered(es[1..])
  }

  /**
   The message listeners after a run are those before it followed by the ones
   the run registered, in order: no other event adds, drops or reorders one.
   */
  lemma {:induction false} RunListeners(c: Catalog, s: State, es: seq<Event>)
    ensures Run(c, s, es).messageListeners == s.messageListeners + Registered(es)
    decreases |es|
  {
    if es != [] {
      StepBookkeeping(c, s, es[0]);
      RunListeners(c, Step(c, s, es[0]), es[1..]);
      assert Run(c, s, es) == Run(c, Step(c, s, es[0]), es[1..]);
      assert Registered(es) == (if es[0].AddMessageListener? then [es[0].listener] else []) + Registered(es[1..]);
    }
  }

  /** Until `login` installs a socket, no run sends anything. */
  lemma {:induction false} NoSocketRunSendsNothing(c: Catalog, s: State, es: seq<Event>)
    requires !s.socket
    requires forall i :: 0 <= i < |es| ==> !es[i].Login?
    ensures Run(c, s, es).outbox == s.outbox
    decreases |es|
  {
    if es != [] {
      StepFrame(c, s, es[0]);
      NoSocketRunSendsNothing(c, Step(c, s, es[0]), es[1..]);
    }
  }

  /** A run of four events is four steps in order. */
  lemma RunOfFour(c: Catalog, s: State, e1: Event, e2: Event, e3: Event, e4: Event)
    ensures Run(c, s, [e1, e2, e3, e4]) == Step(c, Step(c, Step(c, Step(c, s, e1), e2), e3), e4)
  {
    var t1 := Step(c, s, e1);
    var t2 := Step(c, t1, e2);
    var t3 := Step(c, t2, e3);
    var t4 := Step(c, t3, e4);
    assert Run(c, t3, [e4]) == t4 by {
      assert [e4][1..] == [];
    }
    assert Run(c, t2, [e3, e4]) == t4 by {
      assert [e3, e4][1..] == [e4];
    }
    assert Run(c, t1, [e2, e3, e4]) == t4 by {
      assert [e2, e3, e4][1..] == [e3, e4];
    }
    assert [e1, e2, e3, e4][1..] == [e2, e3, e4];
  }

  /**
   Arming a timer does not cancel the one already pending. Here the login
   request's timer is still pending when the reply arrives; a download request
   then resets the received flag, and when the login request's timer fires it
   calls the error listener although that request was answered.
   */
  lemma EarlierTimerFiresAfterLaterRequest(c: Catalog)
    ensures var ack := Message(Decoded(Inbound(LoggingWithCode, None, NoPayload)));
      var s := Run(c, Init(), [Login(1234, 7), Open, ack, DownloadFile("a.pdf")]);
      && s.timers == [0, 1]
      && Step(c, s, TimerFires).effects == s.effects + [ErrorListenerCalled(7)]
  {
    var ack := Message(Decoded(Inbound(LoggingWithCode, None, NoPayload)));
    RunOfFour(c, Init(), Login(1234, 7), Open, ack, DownloadFile("a.pdf"));
    AnsweredThenDownload(c);
    var s := Step(c, Step(c, Step(c, Step(c, Init(), Login(1234, 7)), Open), ack), DownloadFile("a.pdf"));
    SilentExpiryCallsErrorListener(c, s, 7);
  }

  /**
   After `login`, the open, the login reply and one download request, both
   requests' timers are pending and the received flag is reset.
   */
  lemma AnsweredThenDownload(c: Catalog)
    ensures var s := Step(c, Step(c, Step(c, Step(c, Init(), Login(1234, 7)), Open),
                                  Message(Decoded(Inbound(LoggingWithCode, None, NoPayload)))),
                          DownloadFile("a.pdf"));
      s.timers == [0, 1] && s.errorListeners == [7] && !s.isMessageReceived
  {
    var s1 := Step(c, Init(), Login(1234, 7));
    var s2 := Step(c, s1, Open);
    assert s2.timers == [0] && s2.errorListeners == [7];
    var s3 := Step(c, s2, Message(Decoded(Inbound(LoggingWithCode, None, NoPayload))));
    assert s3.timers == [0] && s3.errorListeners == [7] by {
      MessageMarksReceived(c, s2, Decoded(Inbound(LoggingWithCode, None, NoPayload)));
    }
  }

  /**
   `clearTimeout` only cancels the stored handle: after two requests and a
   close, the first request's timer is still pending and calls the error
   listener when it fires.
   */
  lemma CloseLeavesEarlierTimerPending(c: Catalog)
    ensures var s := Run(c, Init(), [Login(1234, 7), Open, DownloadFile("a.pdf"), Close]);
      && s.timers == [0]
      && Step(c, s, TimerFires).effects == s.effects + [ErrorListenerCalled(7)]
  {
    RunOfFour(c, Init(), Login(1234, 7), Open, DownloadFile("a.pdf"), Close);
    TwoRequestsPending(c);
    var s3 := Step(c, Step(c, Step(c, Init(), Login(1234, 7)), Open), DownloadFile("a.pdf"));
    CloseCancelsSecond(c, s3);
    SilentExpiryCallsErrorListener(c, Step(c, s3, Close), 7);
  }

  /** With a pending timer, no message since the last reset and one error listener `l`, expiry calls `l` and nothing else. */
  lemma SilentExpiryCallsErrorListener(c: Catalog, s: State, l: ListenerId)
    requires s.timers != [] && !s.isMessageReceived && s.errorListeners == [l]
    ensures Step(c, s, TimerFires).effects == s.effects + [ErrorListenerCalled(l)]
  {
  }

  /** After `login`, the open and one download request, both requests' timers are pending and the second is stored. */
  lemma TwoRequestsPending(c: Catalog)
    ensures var s := Step(c, Step(c, Step(c, Init(), Login(1234, 7)), Open), DownloadFile("a.pdf"));
      && s.timers == [0, 1] && s.errorTimeout == Some(1)
      && s.errorListeners == [7] && !s.isMessageReceived
  {
    var s1 := Step(c, Init(), Login(1234, 7));
    var s2 := Step(c, s1, Open);
    assert s2.timers == [0] && s2.errorListeners == [7];
  }

  /** With timers 0 and 1 pending and 1 stored, closing cancels 1 and changes nothing else. */
  lemma CloseCancelsSecond(c: Catalog, s: State)
    requires s.timers == [0, 1] && s.errorTimeout == Some(1)
    ensures Step(c, s, Close) == s.(timers := [0])
  {
    assert Step(c, s, Close) == s.(timers := Without([0, 1], 1));
    assert Without([0, 1], 1) == [0] by {
      assert Without([1], 1) == [];
    }
  }
}

=== FILE: service.dfy ===
/**
 The web-socket service as a sequential state machine. The socket is reduced
 to "present or not" plus the outbox of envelopes handed to `ws.send`; the
 listeners are opaque handles whose calls are recorded in an effect log, next
 to the save requests a download produces. Timers are explicit: every arm
 appends a fresh handle to the pending list and overwrites the stored handle,
 `clearTimeout` cancels only the stored one, and a `TimerFires` event fires the
 oldest pending timer (all of them use the same delay).
 */
module Service {
  import opened Wrappers
  import opened Protocol
  import opened FileType

  /** An opaque handle for a callback registered by the UI. */
  type ListenerId = nat

  /** An entry of the file list: the received entry, fields kept, plus its derived `type`. */
  datatype ListedFile = ListedFile(file: File, kind: string)

  /** An observable side effect of handling one event. */
  datatype Effect =
    | MessageListenerCalled(listener: ListenerId, msg: Inbound)
    | ErrorListenerCalled(listener: ListenerId)
    | ListFilesListenerCalled(listener: ListenerId, files: seq<ListedFile>)
    | SaveRequested(filename: string, bytes: string)
    | CloseRequested
    | UncaughtError

  /** A local file picked for upload. */
  datatype LocalFile = LocalFile(name: string, size: int)

  datatype State = State(
    socket: bool,
    passCode: Option<int>,
    isConnected: bool,
    isMessageReceived: bool,
    fileList: seq<ListedFile>,
    messageListeners: seq<ListenerId>,
    errorListeners: seq<ListenerId>,
    listFilesListener: Option<ListenerId>,
    timers: seq<nat>,
    errorTimeout: Option<nat>,
    nextTimer: nat,
    outbox: seq<Envelope>,
    effects: seq<Effect>)

  /** What can happen to the service: UI calls, socket callbacks and timer expiry. */
  datatype Event =
    | Login(code: int, onError: ListenerId)
    | Open
    | Message(frame: Frame)
    | SocketError
    | Close
    | DownloadFile(path: string)
    | DeleteFile(path: string)
    | SendFile(local: LocalFile, onError: ListenerId)
    | FileRead(local: LocalFile, encoded: string)
    | Disconnect
    | AddMessageListener(listener: ListenerId)
    | TimerFires

  /** The service as constructed: no socket, nothing registered, nothing pending. */
  function Init(): State {
    State(false, None, false, false, [], [], [], None, [], None, 0, [], [])
  }

  /** Strictly increasing, so each pending handle appears once, oldest first. */
  ghost predicate Increasing(ts: seq<nat>) {
    forall i, j :: 0 <= i < j < |ts| ==> ts[i] < ts[j]
  }

  /** The timer bookkeeping every reachable state keeps. */
  ghost predicate TimersWellFormed(s: State) {
    && Increasing(s.timers)
    && (forall i :: 0 <= i < |s.timers| ==> s.timers[i] < s.nextTimer)
    && (s.errorTimeout.Some? ==> s.errorTimeout.value < s.nextTimer)
  }

  /** Every file-list entry carries the category its own filename classifies to. */
  ghost predicate Annotated(c: Catalog, files: seq<ListedFile>) {
    forall i :: 0 <= i < |files| ==> files[i].kind == GetFileType(c, files[i].file.filename)
  }

  ghost predicate Valid(c: Catalog, s: State) {
    TimersWellFormed(s) && Annotated(c, s.fileList)
  }

  /** `ws?.send(...)`: the envelope reaches the outbox only when a socket exists. */
  function Transmit(s: State, env: Envelope): State {
    if s.socket then s.(outbox := s.outbox + [env]) else s
  }

  /** `setTimeout` in `executeErrorWhenNoResponseFromServer`: a new pending timer whose handle overwrites the stored one. */
  function Arm(s: State): (s': State)
    ensures s'.timers == s.timers + [s.nextTimer]
    ensures s'.errorTimeout == Some(s.nextTimer)
    ensures TimersWellFormed(s) ==> s.nextTimer !in s.timers && TimersWellFormed(s')
    ensures s' == s.(timers := s'.timers, errorTimeout := s'.errorTimeout, nextTimer := s'.nextTimer)
  {
    s.(timers := s.timers + [s.nextTimer], errorTimeout := Some(s.nextTimer), nextTimer := s.nextTimer + 1)
  }

  /** `ts` with every occurrence of `id` removed, order kept. */
  function Without(ts: seq<nat>, id: nat): (r: seq<nat>)
    ensures forall x :: x in r <==> x in ts && x != id
    ensures id !in ts ==> r == ts
    decreases |ts|
  {
    if ts == [] then []
    else if ts[0] == id then Without(ts[1..], id)
    else [ts[0]] + Without(ts[1..], id)
  }

  /** Removing a handle keeps the pending list increasing and removes exactly one entry when present. */
  lemma {:induction false} WithoutIncreasing(ts: seq<nat>, id: nat)
    requires Increasing(ts)
    ensures Increasing(Without(ts, id))
    ensures id in ts ==> |Without(ts, id)| == |ts| - 1
    decreases |ts|
  {
    if ts != [] {
      var tail := ts[1..];
      assert Increasing(tail);
      WithoutIncreasing(tail, id);
      var w := Without(tail, id);
      if ts[0] == id {
        assert Without(ts, id) == w;
        assert forall j :: 0 <= j < |tail| ==> ts[0] < tail[j];
        assert id !in tail;
      } else {
        assert Without(ts, id) == [ts[0]] + w;
        forall j | 0 <= j < |w|
          ensures ts[0] < w[j]
        {
          assert w[j] in tail;
        }
      }
    }
  }

  /** `clearTimeout(this.errorTimeout)`: cancels the timer whose handle is stored, and only that one. */
  function ClearTimeout(s: State): State {
    match s.errorTimeout
    case None => s
    case Some(id) => s.(timers := Without(s.timers, id))
  }

  /**
   `sendMsgToWs`: arm a timer (whose handle becomes the stored one) and reset
   the received flag whether or not a socket exists; the envelope is sent only
   when one does. Nothing is called.
   */
  function SendMsgToWs(s: State, env: Envelope): (s': State)
    ensures s'.timers == s.timers + [s.nextTimer] && s'.errorTimeout == Some(s.nextTimer)
    ensures !s'.isMessageReceived
    ensures s'.outbox == s.outbox + (if s.socket then [env] else [])
    ensures s'.effects == s.effects
    ensures TimersWellFormed(s) ==> TimersWellFormed(s')
  {
    Transmit(Arm(s).(isMessageReceived := false), env)
  }

  /** `wsListFiles()` without a callback: send LIST_FILES if a socket exists; no timer. */
  function WsListFiles(s: State): State {
    Transmit(s, ListFilesRequest())
  }

  /** One call per listener, in registration order. */
  function ErrorCalls(ls: seq<ListenerId>): (r: seq<Effect>)
    ensures |r| == |ls|
    ensures forall i :: 0 <= i < |ls| ==> r[i] == ErrorListenerCalled(ls[i])
  {
    seq(|ls|, i requires 0 <= i < |ls| => ErrorListenerCalled(ls[i]))
  }

  function MessageCalls(ls: seq<ListenerId>, m: Inbound): (r: seq<Effect>)
    ensures |r| == |ls|
    ensures forall i :: 0 <= i < |ls| ==> r[i] == MessageListenerCalled(ls[i], m)
  {
    seq(|ls|, i requires 0 <= i < |ls| => MessageListenerCalled(ls[i], m))
  }

  /** `wsOnErrorListener.forEach(listener => listener())`. */
  function NotifyErrors(s: State): State {
    s.(effects := s.effects + ErrorCalls(s.errorListeners))
  }

  /** `ws?.close()`: a close request when a socket exists; the handle itself stays set. */
  function CloseSocket(s: State): State {
    if s.socket then s.(effects := s.effects + [CloseRequested]) else s
  }

  /** The handler stopped on an exception that nothing catches. */
  function Throw(s: State): State {
    s.(effects := s.effects + [UncaughtError])
  }

  /** The `map` in `parseListFiles`: each entry kept, with its category attached. */
  function AnnotateFiles(c: Catalog, fs: seq<File>): (r: seq<ListedFile>)
    ensures |r| == |fs|
    ensures forall i :: 0 <= i < |fs| ==> r[i].file == fs[i]
    ensures Annotated(c, r)
    decreases |fs|
  {
    if fs == [] then []
    else [ListedFile(fs[0], GetFileType(c, fs[0].filename))] + AnnotateFiles(c, fs[1..])
  }

  /** `parseListFiles`: replace the file list, then call the list-files listener if its slot is set. */
  function ParseListFiles(c: Catalog, s: State, fs: seq<File>): State {
    var listed := AnnotateFiles(c, fs);
    var s1 := s.(fileList := listed);
    match s.listFilesListener
    case Some(l) => s1.(effects := s1.effects + [ListFilesListenerCalled(l, listed)])
    case None => s1
  }

  /** `saveByteArray`: the download link is only clicked when the file name is non-empty. */
  function SaveByteArray(f: File): seq<Effect> {
    if f.filename != "" then [SaveRequested(f.filename, f.bytes)] else []
  }

  /** The `forEach` over an array payload: one `saveByteArray` per element, in order. */
  function SaveAll(fs: seq<File>): (r: seq<Effect>)
    ensures |fs| == 1 ==> r == SaveByteArray(fs[0])
    ensures |r| <= |fs|
    ensures forall k :: 0 <= k < |r| ==> r[k].SaveRequested? && r[k].filename != ""
    ensures (forall i :: 0 <= i < |fs| ==> fs[i].filename != "") ==>
              |r| == |fs| && forall i :: 0 <= i < |fs| ==> r[i] == SaveRequested(fs[i].filename, fs[i].bytes)
    decreases |fs|
  {
    if fs == [] then [] else SaveByteArray(fs[0]) + SaveAll(fs[1..])
  }

  /**
   Saving a concatenation saves the first part, then the second. With the
   one-file case in `SaveAll`'s contract this fixes the requests for every
   payload: one per named file, in payload order, and nothing for a nameless
   one.
   */
  lemma {:induction false} SaveAllAppend(a: seq<File>, b: seq<File>)
    ensures SaveAll(a + b) == SaveAll(a) + SaveAll(b)
    decreases |a|
  {
    if a != [] {
      var ab := a + b;
      assert ab[0] == a[0] && ab[1..] == a[1..] + b;
      assert SaveAll(ab) == SaveByteArray(a[0]) + SaveAll(a[1..] + b);
      SaveAllAppend(a[1..], b);
      assert SaveAll(a) == SaveByteArray(a[0]) + SaveAll(a[1..]);
    } else {
      assert a + b == b;
    }
  }

  /** `onDownloadedFileFromPhone`. */
  function OnDownloaded(s: State, p: Payload): State {
    match p
    case NoPayload => s
    case FileArray(fs) => s.(effects := s.effects + SaveAll(fs))
    case OneFile(f) => s.(effects := s.effects + SaveByteArray(f))
  }

  /** The login branch of `parseMessage`: a LOGGING_WITH_CODE reply connects and notifies every message listener. */
  function LoginBranch(s: State, m: Inbound): State {
    if m.msgType == LoggingWithCode
    then s.(isConnected := true, effects := s.effects + MessageCalls(s.messageListeners, m))
    else s
  }

  /** The `switch` on `command` in `parseMessage`. */
  function Dispatch(c: Catalog, s: State, m: Inbound): State {
    match m.command
    case Some(Download) => OnDownloaded(s, m.payload)
    case Some(Upload) => WsListFiles(s)
    case Some(ListFiles) =>
      (match m.payload
       case FileArray(fs) => ParseListFiles(c, s, fs)
       case _ => Throw(s))
    case _ => s
  }

  /** `parseMessage`: the login branch, then the dispatch on `command`. */
  function ParseMessage(c: Catalog, s: State, m: Inbound): State {
    Dispatch(c, LoginBranch(s, m), m)
  }

  /** `onMessage`: set the received flag, then parse the frame. */
  function OnMessage(c: Catalog, s: State, f: Frame): State {
    var s1 := s.(isMessageReceived := true);
    match f
    case Malformed => Throw(s1)
    case Decoded(m) => ParseMessage(c, s1, m)
  }

  /** The oldest pending timer fires: it calls the error listeners unless a message arrived since the last reset. */
  function Expire(s: State): State {
    if s.timers == [] then s
    else
      var s1 := s.(timers := s.timers[1..]);
      if s.isMessageReceived then s1 else NotifyErrors(s1)
  }

  /** The service's reaction to one event. */
  function Step(c: Catalog, s: State, e: Event): State {
    match e
    case Login(code, err) => s.(errorListeners := [err], passCode := Some(code), socket := true)
    case Open => SendMsgToWs(s, LoginRequest(s.passCode))
    case Message(f) => OnMessage(c, s, f)
    case SocketError => ClearTimeout(CloseSocket(NotifyErrors(s)))
    case Close => ClearTimeout(s)
    case DownloadFile(p) => SendMsgToWs(s, DownloadRequest(p))
    case DeleteFile(p) => WsListFiles(SendMsgToWs(s, RemoveRequest(p)))
    case SendFile(_, err) => Arm(s).(isMessageReceived := false, errorListeners := [err])
    case FileRead(f, encoded) => Transmit(s, UploadRequest(f.name, f.size, encoded))
    case Disconnect => CloseSocket(s)
    case AddMessageListener(l) => s.(messageListeners := s.messageListeners + [l])
    case TimerFires => Expire(s)
  }
}

=== FILE: service_props.dfy ===
/**
 Properties of single steps of the service: what each event sends, which
 callbacks it calls and in what order, and what it leaves alone.
 */
module ServiceProps {
  import opened Wrappers
  import opened Protocol
  import opened FileType
  import opened Service

  /** The event is the arrival of a decoded LOGGING_WITH_CODE message. */
  predicate IsLoginAck(e: Event) {
    e.Message? && e.frame.Decoded? && e.frame.msg.msgType == LoggingWithCode
  }

  /** The event is the arrival of a decoded message whose command is LIST_FILES. */
  predicate IsListFilesReply(e: Event) {
    e.Message? && e.frame.Decoded? && e.frame.msg.command == Some(ListFiles)
  }

  /** The message-listener calls the login branch of `parseMessage` makes for `m`. */
  function LoginCalls(s: State, m: Inbound): seq<Effect> {
    if m.msgType == LoggingWithCode then MessageCalls(s.messageListeners, m) else []
  }

  /** An inbound message whose `type` is `t`, `command` is `cmd` and `payload` is `p`. */
  function Reply(t: MsgType, cmd: Command, p: Payload): Event {
    Message(Decoded(Inbound(t, Some(cmd), p)))
  }

  /**
   What every event keeps: the outbox and the effect log only grow (the outbox
   by at most two envelopes), the list-files slot is never written, the socket
   appears only through `login`, the connected flag is only ever raised and
   only by a login acknowledgment, the received flag is only raised by a
   message, and only a LIST_FILES reply replaces the file list.
   */
  lemma StepFrame(c: Catalog, s: State, e: Event)
    ensures s.outbox <= Step(c, s, e).outbox
    ensures |Step(c, s, e).outbox| <= |s.outbox| + 2
    ensures s.effects <= Step(c, s, e).effects
    ensures Step(c, s, e).listFilesListener == s.listFilesListener
    ensures Step(c, s, e).socket == (s.socket || e.Login?)
    ensures Step(c, s, e).isConnected <==> s.isConnected || IsLoginAck(e)
    ensures Step(c, s, e).isMessageReceived && !s.isMessageReceived ==> e.Message?
    ensures Step(c, s, e).fileList != s.fileList ==> IsListFilesReply(e)
  {
    if e.Message? {
      assert Step(c, s, e) == OnMessage(c, s, e.frame);
      MessageFrame(c, s, e.frame);
    } else {
      RequestFrame(c, s, e);
    }
  }

  /** The part of `StepFrame` about events other than received frames. */
  lemma RequestFrame(c: Catalog, s: State, e: Event)
    requires !e.Message?
    ensures s.outbox <= Step(c, s, e).outbox
    ensures |Step(c, s, e).outbox| <= |s.outbox| + 2
    ensures s.effects <= Step(c, s, e).effects
    ensures Step(c, s, e).listFilesListener == s.listFilesListener
    ensures Step(c, s, e).socket == (s.socket || e.Login?)
    ensures Step(c, s, e).isConnected == s.isConnected
    ensures Step(c, s, e).isMessageReceived ==> s.isMessageReceived
    ensures Step(c, s, e).fileList == s.fileList
  {
    if e.SocketError? || e.Close? || e.TimerFires? {
      SocketAndTimerFrame(c, s, e);
    } else {
      UiCallFrame(c, s, e);
    }
  }

  /** The part of `RequestFrame` about the socket's error and close callbacks and timer expiry. */
  lemma SocketAndTimerFrame(c: Catalog, s: State, e: Event)
    requires e.SocketError? || e.Close? || e.TimerFires?
    ensures s.outbox <= Step(c, s, e).outbox
    ensures |Step(c, s, e).outbox| <= |s.outbox| + 2
    ensures s.effects <= Step(c, s, e).effects
    ensures Step(c, s, e).listFilesListener == s.listFilesListener
    ensures Step(c, s, e).socket == (s.socket || e.Login?)
    ensures Step(c, s, e).isConnected == s.isConnected
    ensures Step(c, s, e).isMessageReceived ==> s.isMessageReceived
    ensures Step(c, s, e).fileList == s.fileList
  {
    var s' := Step(c, s, e);
    match e
    case SocketError =>
      var s1 := CloseSocket(NotifyErrors(s));
      assert s.effects <= s1.effects;
      assert s' == s1.(timers := s'.timers);
    case Close =>
      assert s' == s.(timers := s'.timers);
    case TimerFires =>
      assert s.effects <= s'.effects;
  }

  /** The part of `RequestFrame` about the calls the UI makes and the socket's open callback. */
  lemma UiCallFrame(c: Catalog, s: State, e: Event)
    requires !(e.Message? || e.SocketError? || e.Close? || e.TimerFires?)
    ensures s.outbox <= Step(c, s, e).outbox
    ensures |Step(c, s, e).outbox| <= |s.outbox| + 2
    ensures s.effects <= Step(c, s, e).effects
    ensures Step(c, s, e).listFilesListener == s.listFilesListener
    ensures Step(c, s, e).socket == (s.socket || e.Login?)
    ensures Step(c, s, e).isConnected == s.isConnected
    ensures Step(c, s, e).isMessageReceived ==> s.isMessageReceived
    ensures Step(c, s, e).fileList == s.fileList
  {
    if e.DeleteFile? {
      var s1 := SendMsgToWs(s, RemoveRequest(e.path));
      assert s.outbox <= s1.outbox && |s1.outbox| <= |s.outbox| + 1;
    }
  }

  /** A received frame sets the received flag, may connect, appends, and may replace the file list; nothing else changes. */
  lemma MessageFrame(c: Catalog, s: State, f: Frame)
    ensures OnMessage(c, s, f)
              == s.(isMessageReceived := true, isConnected := OnMessage(c, s, f).isConnected,
                    outbox := OnMessage(c, s, f).outbox, effects := OnMessage(c, s, f).effects,
                    fileList := OnMessage(c, s, f).fileList)
    ensures OnMessage(c, s, f).outbox == s.outbox || OnMessage(c, s, f).outbox == s.outbox + [ListFilesRequest()]
    ensures s.effects <= OnMessage(c, s, f).effects
    ensures OnMessage(c, s, f).isConnected <==> s.isConnected || IsLoginAck(Message(f))
    ensures OnMessage(c, s, f).fileList != s.fileList ==> IsListFilesReply(Message(f))
  {
    if f.Decoded? {
      var s1 := LoginBranch(s.(isMessageReceived := true), f.msg);
      assert s.effects <= s1.effects;
      DispatchFrame(c, s1, f.msg);
    }
  }

  /** The dispatch on `command` only appends to the outbox and the effect log and may replace the file list; nothing else changes. */
  lemma DispatchFrame(c: Catalog, s: State, m: Inbound)
    ensures Dispatch(c, s, m)
              == s.(outbox := Dispatch(c, s, m).outbox, effects := Dispatch(c, s, m).effects,
                    fileList := Dispatch(c, s, m).fileList)
    ensures Dispatch(c, s, m).outbox == s.outbox || Dispatch(c, s, m).outbox == s.outbox + [ListFilesRequest()]
    ensures s.effects <= Dispatch(c, s, m).effects
    ensures Dispatch(c, s, m).fileList != s.fileList ==> m.command == Some(ListFiles)
    ensures forall k :: |s.effects| <= k < |Dispatch(c, s, m).effects| ==>
              !Dispatch(c, s, m).effects[k].MessageListenerCalled?
    ensures s.listFilesListener.None? ==>
              forall k :: |s.effects| <= k < |Dispatch(c, s, m).effects| ==>
                !Dispatch(c, s, m).effects[k].ListFilesListenerCalled?
  {
    var s' := Dispatch(c, s, m);
    match m.command
    case Some(Download) =>
      OnDownloadedOnlySaves(s, m.payload);
      assert s' == s.(effects := s'.effects);
    case Some(Upload) =>
      assert s' == s.(outbox := s'.outbox);
      assert s'.effects == s.effects;
    case Some(ListFiles) =>
      if m.payload.FileArray? {
        ParseListFilesFrame(c, s, m.payload.files);
      } else {
        assert s' == Throw(s);
      }
    case _ =>
      assert s' == s;
  }

  /** A download only appends save requests. */
  lemma OnDownloadedOnlySaves(s: State, p: Payload)
    ensures OnDownloaded(s, p) == s.(effects := OnDownloaded(s, p).effects)
    ensures s.effects <= OnDownloaded(s, p).effects
    ensures forall k :: |s.effects| <= k < |OnDownloaded(s, p).effects| ==>
              OnDownloaded(s, p).effects[k].SaveRequested?
  {
    if p.FileArray? {
      var saves := SaveAll(p.files);
      assert OnDownloaded(s, p).effects == s.effects + saves;
    }
  }

  /** A list reply only replaces the file list and appends at most one list-files listener call, made only when the slot is set. */
  lemma ParseListFilesFrame(c: Catalog, s: State, fs: seq<File>)
    ensures ParseListFiles(c, s, fs)
              == s.(fileList := ParseListFiles(c, s, fs).fileList, effects := ParseListFiles(c, s, fs).effects)
    ensures s.listFilesListener.None? ==> ParseListFiles(c, s, fs).effects == s.effects
    ensures s.listFilesListener.Some? ==>
              ParseListFiles(c, s, fs).effects == s.effects + [ListFilesListenerCalled(s.listFilesListener.value, AnnotateFiles(c, fs))]
  {
  }

  /** Without a socket nothing is sent, whatever the event, except that `login` installs one. */
  lemma NoSocketSendsNothing(c: Catalog, s: State, e: Event)
    requires !s.socket && !e.Login?
    ensures Step(c, s, e).outbox == s.outbox
  {
  }

  /**
   Every event that goes through `sendMsgToWs` (the open, `downloadFile` and
   `deleteFile`) still arms a timer (whose handle becomes the stored one) and
   resets the received flag when there is no socket, so the oldest pending
   timer calls the error listeners when it fires.
   */
  lemma SendWithoutSocketStillArms(c: Catalog, s: State, e: Event)
    requires !s.socket && (e.Open? || e.DownloadFile? || e.DeleteFile?)
    ensures var s' := Step(c, s, e);
      && s'.outbox == s.outbox
      && s'.timers == s.timers + [s.nextTimer]
      && s'.errorTimeout == Some(s.nextTimer)
      && !s'.isMessageReceived
      && s'.effects == s.effects
      && (s.timers == [] ==> Step(c, s', TimerFires).effects == s.effects + ErrorCalls(s.errorListeners))
  {
  }

  /** `downloadFile(p)` sends exactly one FORWARD/DOWNLOAD with `path = p` and arms a timer. */
  lemma DownloadSendsOneRequest(c: Catalog, s: State, path: string)
    requires s.socket
    ensures var s' := Step(c, s, DownloadFile(path));
      && s'.outbox == s.outbox + [ForwardEnvelope(Download, Some(path), None)]
      && s'.timers == s.timers + [s.nextTimer]
      && s'.effects == s.effects
  {
  }

  /**
   `deleteFile(p)` sends FORWARD/REMOVE with `path = p` and then FORWARD/LIST_FILES,
   arming one timer (for the first send only) and calling nothing.
   */
  lemma DeleteSendsRemoveThenList(c: Catalog, s: State, path: string)
    requires s.socket
    ensures var s' := Step(c, s, DeleteFile(path));
      && s'.outbox == s.outbox + [ForwardEnvelope(Remove, Some(path), None), ForwardEnvelope(ListFiles, None, None)]
      && s'.timers == s.timers + [s.nextTimer]
      && !s'.isMessageReceived
      && s'.effects == s.effects
  {
  }

  /**
   An UPLOAD acknowledgment of any type sends one FORWARD/LIST_FILES (when a
   socket exists) and adds no effect beyond the login branch's calls; when it
   is not a login reply it changes nothing else: no timer, no callback, no
   file-list change.
   */
  lemma UploadAckRelists(c: Catalog, s: State, t: MsgType, p: Payload)
    ensures var s' := Step(c, s, Reply(t, Upload, p));
      && s'.outbox == s.outbox + (if s.socket then [ForwardEnvelope(ListFiles, None, None)] else [])
      && s'.effects == s.effects + LoginCalls(s, Inbound(t, Some(Upload), p))
      && s'.fileList == s.fileList
      && (t != LoggingWithCode ==>
            s' == s.(isMessageReceived := true,
                     outbox := s.outbox + (if s.socket then [ForwardEnvelope(ListFiles, None, None)] else [])))
  {
  }

  /**
   A LIST_FILES reply with an array payload replaces the file list by one entry
   per payload entry, in order, each kept whole and tagged with the category of
   its filename; the list-files listener is called once with that list exactly
   when its slot is set, after the login branch's calls.
   */
  lemma ListFilesReplyAnnotates(c: Catalog, s: State, t: MsgType, fs: seq<File>)
    ensures var s' := Step(c, s, Reply(t, ListFiles, FileArray(fs)));
      && |s'.fileList| == |fs|
      && (forall i :: 0 <= i < |fs| ==> s'.fileList[i] == ListedFile(fs[i], GetFileType(c, fs[i].filename)))
      && s'.effects
           == s.effects + LoginCalls(s, Inbound(t, Some(ListFiles), FileArray(fs)))
              + (match s.listFilesListener
                 case Some(l) => [ListFilesListenerCalled(l, s'.fileList)]
                 case None => [])
      && s'.outbox == s.outbox
  {
    var m := Inbound(t, Some(ListFiles), FileArray(fs));
    var s2 := LoginBranch(s.(isMessageReceived := true), m);
    assert Step(c, s, Reply(t, ListFiles, FileArray(fs))) == ParseListFiles(c, s2, fs);
  }

  /**
   A LIST_FILES reply whose payload is not an array makes `.map` throw: the file
   list and the listener are left alone.
   */
  lemma ListFilesReplyWithoutArrayThrows(c: Catalog, s: State, t: MsgType, p: Payload)
    requires !p.FileArray?
    ensures Step(c, s, Reply(t, ListFiles, p)).fileList == s.fileList
    ensures Step(c, s, Reply(t, ListFiles, p)).effects
              == s.effects + LoginCalls(s, Inbound(t, Some(ListFiles), p)) + [UncaughtError]
  {
  }

  /**
   A login acknowledgment sets the connected flag and calls every registered
   message listener once with the message, in registration order, before any
   effect of the command dispatch, which calls no message listener.
   */
  lemma LoginAckNotifiesListeners(c: Catalog, s: State, m: Inbound)
    requires m.msgType == LoggingWithCode
    ensures var s' := Step(c, s, Message(Decoded(m)));
      && s'.isConnected
      && |s.effects| + |s.messageListeners| <= |s'.effects|
      && (forall i :: 0 <= i < |s.messageListeners| ==>
            s'.effects[|s.effects| + i] == MessageListenerCalled(s.messageListeners[i], m))
      && (forall k :: |s.effects| + |s.messageListeners| <= k < |s'.effects| ==>
            !s'.effects[k].MessageListenerCalled?)
  {
    var s1 := s.(isMessageReceived := true);
    var s2 := LoginBranch(s1, m);
    DispatchFrame(c, s2, m);
    var n := |s2.effects|;
    var s' := Dispatch(c, s2, m);
    assert s'.effects[..n] == s2.effects;
  }

  /** Any other message leaves the connected flag as it was and calls no message listener. */
  lemma OtherMessageKeepsConnection(c: Catalog, s: State, f: Frame)
    requires !(f.Decoded? && f.msg.msgType == LoggingWithCode)
    ensures Step(c, s, Message(f)).isConnected == s.isConnected
    ensures forall k :: |s.effects| <= k < |Step(c, s, Message(f)).effects| ==>
              !Step(c, s, Message(f)).effects[k].MessageListenerCalled?
  {
    if f.Decoded? {
      var s1 := s.(isMessageReceived := true);
      assert LoginBranch(s1, f.msg) == s1;
      DispatchFrame(c, s1, f.msg);
    }
  }

  /** Every received frame, well-formed or not, marks a message as received. */
  lemma MessageMarksReceived(c: Catalog, s: State, f: Frame)
    ensures var s' := Step(c, s, Message(f));
      && s'.isMessageReceived
      && s'.timers == s.timers
      && s'.errorTimeout == s.errorTimeout
      && s'.nextTimer == s.nextTimer
  {
    assert Step(c, s, Message(f)) == OnMessage(c, s, f);
    MessageFrame(c, s, f);
  }

  /** A frame `JSON.parse` rejects: the flag is set, then the handler throws and nothing else happens. */
  lemma MalformedFrameThrows(c: Catalog, s: State)
    ensures Step(c, s, Message(Malformed))
              == s.(isMessageReceived := true, effects := s.effects + [UncaughtError])
  {
  }

  /**
   A DOWNLOAD reply with an array payload, whatever its type, asks to save every
   named element, in payload order, after the login branch's calls, and nothing
   else: a payload `a + b` gives the requests of `a` followed by those of `b`,
   and a single file gives one request exactly when it is named. With every
   element named, that is one request per element.
   */
  lemma DownloadArraySavesEach(c: Catalog, s: State, t: MsgType, fs: seq<File>)
    ensures var s' := Step(c, s, Reply(t, Download, FileArray(fs)));
      var n := |s.effects| + |LoginCalls(s, Inbound(t, Some(Download), FileArray(fs)))|;
      && s'.outbox == s.outbox
      && s'.effects == s.effects + LoginCalls(s, Inbound(t, Some(Download), FileArray(fs))) + SaveAll(fs)
      && (forall k :: n <= k < |s'.effects| ==> s'.effects[k].SaveRequested?)
      && ((forall i :: 0 <= i < |fs| ==> fs[i].filename != "") ==>
            |s'.effects| == n + |fs|
            && forall i :: 0 <= i < |fs| ==> s'.effects[n + i] == SaveRequested(fs[i].filename, fs[i].bytes))
  {
    var m := Inbound(t, Some(Download), FileArray(fs));
    var s2 := LoginBranch(s.(isMessageReceived := true), m);
    assert s2.effects == s.effects + LoginCalls(s, m);
    assert Step(c, s, Reply(t, Download, FileArray(fs))) == OnDownloaded(s2, m.payload);
  }

  /** A DOWNLOAD reply with one file, whatever its type, asks to save it once, if it is named, after the login branch's calls. */
  lemma DownloadOneFileSavesOnce(c: Catalog, s: State, t: MsgType, f: File)
    ensures Step(c, s, Reply(t, Download, OneFile(f))).effects
              == s.effects + LoginCalls(s, Inbound(t, Some(Download), OneFile(f)))
                 + (if f.filename != "" then [SaveRequested(f.filename, f.bytes)] else [])
  {
  }

  /**
   A DOWNLOAD reply of any type without payload sends nothing and saves
   nothing; when it is not a login reply it only sets the received flag.
   */
  lemma DownloadWithoutPayloadSavesNothing(c: Catalog, s: State, t: MsgType)
    ensures var s' := Step(c, s, Reply(t, Download, NoPayload));
      && s'.outbox == s.outbox
      && s'.effects == s.effects + LoginCalls(s, Inbound(t, Some(Download), NoPayload))
      && (t != LoggingWithCode ==> s' == s.(isMessageReceived := true))
  {
  }

  /**
   A message whose command the dispatch does not handle (absent, REMOVE or
   unknown) has no effect beyond the received flag and the login branch.
   */
  lemma UnhandledCommandOnlyLoginBranch(c: Catalog, s: State, m: Inbound)
    requires m.command.None? || m.command == Some(Remove) || m.command == Some(OtherCommand)
    ensures Step(c, s, Message(Decoded(m)))
              == if m.msgType == LoggingWithCode
                 then s.(isMessageReceived := true, isConnected := true,
                         effects := s.effects + MessageCalls(s.messageListeners, m))
                 else s.(isMessageReceived := true)
  {
  }

  /**
   Timer expiry fires the oldest pending timer: it calls every error listener
   once, in order, if no message arrived since the last reset, and none
   otherwise; with no pending timer nothing happens.
   */
  lemma TimerFiresIffSilent(c: Catalog, s: State)
    ensures s.timers != [] ==> Step(c, s, TimerFires).timers == s.timers[1..]
    ensures s.timers != [] && !s.isMessageReceived ==>
              Step(c, s, TimerFires).effects == s.effects + ErrorCalls(s.errorListeners)
    ensures s.timers != [] && s.isMessageReceived ==> Step(c, s, TimerFires).effects == s.effects
    ensures s.timers == [] ==> Step(c, s, TimerFires) == s
    ensures Step(c, s, TimerFires).outbox == s.outbox
  {
  }

  /**
   `login(code, err)` makes the error listeners exactly `[err]`, stores the code
   and installs a socket; the following open sends LOGGING_WITH_CODE with that
   code and arms a timer.
   */
  lemma LoginThenOpenSendsCode(c: Catalog, s: State, code: int, err: ListenerId)
    ensures var s1 := Step(c, s, Login(code, err));
      var s2 := Step(c, s1, Open);
      && s1.errorListeners == [err]
      && s1.passCode == Some(code)
      && s1.socket
      && s1.outbox == s.outbox
      && s2.outbox == s.outbox + [LoginEnvelope(Some(code))]
      && s2.timers == s.timers + [s.nextTimer]
  {
  }

  /**
   `sendFile(f, err)` replaces the error listeners by `[err]`, arms a timer and
   resets the received flag, but sends nothing until the read completes; the
   completed read then sends one FORWARD/UPLOAD without arming a timer.
   */
  lemma SendFileThenRead(c: Catalog, s: State, f: LocalFile, err: ListenerId, encoded: string)
    requires s.socket
    ensures var s1 := Step(c, s, SendFile(f, err));
      var s2 := Step(c, s1, FileRead(f, encoded));
      && s1.errorListeners == [err]
      && s1.timers == s.timers + [s.nextTimer]
      && !s1.isMessageReceived
      && s1.outbox == s.outbox
      && s2.outbox == s.outbox + [ForwardEnvelope(Upload, None, Some(UploadPayload(f.name, "", f.size, encoded)))]
      && s2.timers == s1.timers
      && s2.effects == s.effects
  {
  }

  /**
   Whenever the read started by `sendFile` completes, whatever happened since,
   `wsUploadFile` sends one FORWARD/UPLOAD with the file's name, an empty path,
   its size and the encoded bytes if a socket exists, and nothing else changes:
   no timer, no flag, no callback.
   */
  lemma FileReadSendsUpload(c: Catalog, s: State, f: LocalFile, encoded: string)
    ensures Step(c, s, FileRead(f, encoded))
              == s.(outbox := s.outbox + (if s.socket
                                          then [ForwardEnvelope(Upload, None, Some(UploadPayload(f.name, "", f.size, encoded)))]
                                          else []))
  {
  }

  /** `addWsOnMessageListener(l)` appends `l` after the listeners already registered. */
  lemma AddListenerAppends(c: Catalog, s: State, l: ListenerId)
    ensures Step(c, s, AddMessageListener(l)).messageListeners == s.messageListeners + [l]
    ensures Step(c, s, AddMessageListener(l)).effects == s.effects
  {
  }

  /**
   `clearTimeout` cancels only the stored (latest) handle: on close or socket
   error every other pending timer stays pending. A socket error additionally
   calls every error listener once and requests the socket's closure.
   */
  lemma CloseAndErrorCancelLatestOnly(c: Catalog, s: State, e: Event)
    requires TimersWellFormed(s) && (e.Close? || e.SocketError?)
    ensures forall x :: x in Step(c, s, e).timers <==>
              x in s.timers && Some(x) != s.errorTimeout
    ensures |Step(c, s, e).timers| >= |s.timers| - 1
    ensures e.Close? ==> Step(c, s, e).effects == s.effects
    ensures e.SocketError? ==>
              Step(c, s, e).effects == s.effects + ErrorCalls(s.errorListeners) + (if s.socket then [CloseRequested] else [])
  {
    match e
    case Close =>
      ClearTimeoutCancelsLatest(s);
    case SocketError =>
      ClearTimeoutCancelsLatest(CloseSocket(NotifyErrors(s)));
  }

  /** `clearTimeout` removes the stored handle from the pending timers and nothing else. */
  lemma ClearTimeoutCancelsLatest(s: State)
    requires TimersWellFormed(s)
    ensures forall x :: x in ClearTimeout(s).timers <==> x in s.timers && Some(x) != s.errorTimeout
    ensures |ClearTimeout(s).timers| >= |s.timers| - 1
    ensures ClearTimeout(s) == s.(timers := ClearTimeout(s).timers)
  {
    if s.errorTimeout.Some? {
      WithoutIncreasing(s.timers, s.errorTimeout.value);
    }
  }

  /** `disconnect()` requests the closure of the socket when there is one, and does nothing else. */
  lemma DisconnectRequestsClose(c: Catalog, s: State)
    ensures Step(c, s, Disconnect) == if s.socket then s.(effects := s.effects + [CloseRequested]) else s
  {
  }

  /** The events that go through `executeErrorWhenNoResponseFromServer`: every `sendMsgToWs` caller and `sendFile`. */
  predicate Arms(e: Event) {
    e.Open? || e.DownloadFile? || e.DeleteFile? || e.SendFile?
  }

  /**
   What each event does to the registrations, the stored code, the received
   flag and the timer handles: only `addWsOnMessageListener` adds a message
   listener (at the end); only `login` and `sendFile` replace the error
   listeners; only `login` writes the code; a message raises the flag and only
   the arming events lower it; only they arm a timer, whose handle becomes the
   stored one; no other event touches the stored or the next handle, and only
   close, socket error and expiry remove pending timers.
   */
  lemma StepBookkeeping(c: Catalog, s: State, e: Event)
    ensures var s' := Step(c, s, e);
      && s'.messageListeners == s.messageListeners + (if e.AddMessageListener? then [e.listener] else [])
      && s'.errorListeners == (if e.Login? || e.SendFile? then [e.onError] else s.errorListeners)
      && s'.passCode == (if e.Login? then Some(e.code) else s.passCode)
      && s'.isMessageReceived == (if e.Message? then true else if Arms(e) then false else s.isMessageReceived)
      && (Arms(e) ==>
            s'.timers == s.timers + [s.nextTimer] && s'.errorTimeout == Some(s.nextTimer)
            && s'.nextTimer == s.nextTimer + 1)
      && (!Arms(e) ==> s'.errorTimeout == s.errorTimeout && s'.nextTimer == s.nextTimer)
      && (!Arms(e) && !(e.SocketError? || e.Close? || e.TimerFires?) ==> s'.timers == s.timers)
  {
    if e.Message? {
      assert Step(c, s, e) == OnMessage(c, s, e.frame);
      MessageFrame(c, s, e.frame);
    } else if e.SocketError? || e.Close? || e.TimerFires? {
      TimerEventsBookkeeping(c, s, e);
    } else {
      RequestsBookkeeping(c, s, e);
    }
  }

  /** Close, socket error and expiry only remove pending timers and may record calls; the registrations, the code, the flag and the handles stay. */
  lemma TimerEventsBookkeeping(c: Catalog, s: State, e: Event)
    requires e.SocketError? || e.Close? || e.TimerFires?
    ensures var s' := Step(c, s, e);
      && s'.messageListeners == s.messageListeners
      && s'.errorListeners == s.errorListeners
      && s'.passCode == s.passCode
      && s'.isMessageReceived == s.isMessageReceived
      && s'.errorTimeout == s.errorTimeout && s'.nextTimer == s.nextTimer
  {
    match e
    case SocketError =>
      var s1 := CloseSocket(NotifyErrors(s));
      assert Step(c, s, e) == ClearTimeout(s1);
      assert s1 == s.(effects := s1.effects);
    case Close =>
      assert Step(c, s, e) == ClearTimeout(s);
    case TimerFires =>
      assert Step(c, s, e) == Expire(s);
  }

  /** The part of `StepBookkeeping` about the calls the UI makes and the socket's open callback. */
  lemma RequestsBookkeeping(c: Catalog, s: State, e: Event)
    requires !(e.Message? || e.SocketError? || e.Close? || e.TimerFires?)
    ensures var s' := Step(c, s, e);
      && s'.messageListeners == s.messageListeners + (if e.AddMessageListener? then [e.listener] else [])
      && s'.errorListeners == (if e.Login? || e.SendFile? then [e.onError] else s.errorListeners)
      && s'.passCode == (if e.Login? then Some(e.code) else s.passCode)
      && s'.isMessageReceived == (if Arms(e) then false else s.isMessageReceived)
      && (Arms(e) ==>
            s'.timers == s.timers + [s.nextTimer] && s'.errorTimeout == Some(s.nextTimer)
            && s'.nextTimer == s.nextTimer + 1)
      && (!Arms(e) ==> s'.timers == s.timers && s'.errorTimeout == s.errorTimeout && s'.nextTimer == s.nextTimer)
  {
    if e.Open? || e.DownloadFile? || e.DeleteFile? {
      SendsBookkeeping(c, s, e);
    }
  }

  /** The part of `RequestsBookkeeping` about the events that go through `sendMsgToWs`. */
  lemma SendsBookkeeping(c: Catalog, s: State, e: Event)
    requires e.Open? || e.DownloadFile? || e.DeleteFile?
    ensures var s' := Step(c, s, e);
      && s'.messageListeners == s.messageListeners
      && s'.errorListeners == s.errorListeners
      && s'.passCode == s.passCode
      && !s'.isMessageReceived
      && s'.timers == s.timers + [s.nextTimer] && s'.errorTimeout == Some(s.nextTimer)
      && s'.nextTimer == s.nextTimer + 1
  {
  }

  /**
   Which events can send and which can record a call: `login`, `sendFile`, the
   error and close callbacks, `disconnect`, `addWsOnMessageListener` and timer
   expiry send nothing; `login`, the open, the close callback, the three
   requests, the completed read and `addWsOnMessageListener` call no listener
   and request no close.
   */
  lemma StepOutputs(c: Catalog, s: State, e: Event)
    ensures var s' := Step(c, s, e);
      && ((e.Login? || e.SendFile? || e.SocketError? || e.Close? || e.Disconnect?
           || e.AddMessageListener? || e.TimerFires?) ==> s'.outbox == s.outbox)
      && ((e.Login? || e.Open? || e.Close? || e.DownloadFile? || e.DeleteFile?
           || e.SendFile? || e.FileRead? || e.AddMessageListener?) ==> s'.effects == s.effects)
  {
    match e
    case SocketError =>
      assert Step(c, s, e) == ClearTimeout(CloseSocket(NotifyErrors(s)));
    case Close =>
      assert Step(c, s, e) == ClearTimeout(s);
    case _ =>
  }

  /**
   The timer bookkeeping and the annotation of the file list are kept by every
   event.
   */
  lemma StepKeepsValid(c: Catalog, s: State, e: Event)
    requires Valid(c, s)
    ensures Valid(c, Step(c, s, e))
  {
    StepKeepsTimers(c, s, e);
    StepFrame(c, s, e);
    if Step(c, s, e).fileList != s.fileList {
      ListFilesReplyList(c, s, e.frame.msg);
    }
  }

  /** A LIST_FILES message leaves the file list alone or replaces it by the annotated payload. */
  lemma ListFilesReplyList(c: Catalog, s: State, m: Inbound)
    requires m.command == Some(ListFiles)
    ensures var l := OnMessage(c, s, Decoded(m)).fileList;
      l == s.fileList || (m.payload.FileArray? && l == AnnotateFiles(c, m.payload.files))
  {
    var s2 := LoginBranch(s.(isMessageReceived := true), m);
    assert OnMessage(c, s, Decoded(m)) == Dispatch(c, s2, m);
    assert s2.fileList == s.fileList;
    if m.payload.FileArray? {
      assert Dispatch(c, s2, m) == ParseListFiles(c, s2, m.payload.files);
    } else {
      assert Dispatch(c, s2, m) == Throw(s2);
    }
  }

  /** Every event keeps the pending timers increasing and below the next handle. */
  lemma StepKeepsTimers(c: Catalog, s: State, e: Event)
    requires TimersWellFormed(s)
    ensures TimersWellFormed(Step(c, s, e))
  {
    if e.Message? {
      assert Step(c, s, e) == OnMessage(c, s, e.frame);
      MessageFrame(c, s, e.frame);
    } else if e.SocketError? || e.Close? || e.TimerFires? {
      TimerEventsKeepTimers(c, s, e);
    } else {
      RequestsKeepTimers(c, s, e);
    }
  }

  /** Close, socket error and expiry keep the pending timers increasing and below the next handle. */
  lemma TimerEventsKeepTimers(c: Catalog, s: State, e: Event)
    requires TimersWellFormed(s) && (e.SocketError? || e.Close? || e.TimerFires?)
    ensures TimersWellFormed(Step(c, s, e))
  {
    match e
    case SocketError =>
      assert Step(c, s, e) == ClearTimeout(CloseSocket(NotifyErrors(s)));
      ClearTimeoutKeepsTimers(CloseSocket(NotifyErrors(s)));
    case Close =>
      assert Step(c, s, e) == ClearTimeout(s);
      ClearTimeoutKeepsTimers(s);
    case TimerFires =>
      if s.timers != [] {
        assert Increasing(s.timers[1..]);
      }
  }

  /** The calls from the user interface arm at most one timer and keep the bookkeeping well-formed. */
  lemma RequestsKeepTimers(c: Catalog, s: State, e: Event)
    requires TimersWellFormed(s)
    requires !(e.Message? || e.SocketError? || e.Close? || e.TimerFires?)
    ensures TimersWellFormed(Step(c, s, e))
  {
  }

  /** `clearTimeout` keeps the pending timers increasing and below the next handle. */
  lemma ClearTimeoutKeepsTimers(s: State)
    requires TimersWellFormed(s)
    ensures TimersWellFormed(ClearTimeout(s))
  {
    if s.errorTimeout.Some? {
      WithoutIncreasing(s.timers, s.errorTimeout.value);
      var r := Without(s.timers, s.errorTimeout.value);
      assert forall i :: 0 <= i < |r| ==> r[i] in s.timers;
    }
  }
}

=== FILE: wrappers.dfy ===
/** The optional value used throughout the model for the source's `undefined`/`null` slots. */
module Wrappers {

  datatype Option<+T> = None | Some(value: T)
}
